=== FILE: README.md ===
# kitchen-orders: a Dafny model of the storage and eviction engine

The kitchen-orders service accepts food orders and places each one into one of
three storage tiers: HOT, COLD and SHELF, holding 6, 6 and 12 orders. Each
order names its best tier. When that tier is full the order goes to the
SHELF. When the SHELF is full too, the engine first tries to move a SHELF
order to its own best tier, if that tier has room. Failing that, it discards
the SHELF order that is closest to spoiling. A later pickup job removes the
order if it is still stored. Every place, move, discard and pickup is
recorded in an action log, and the log is read back sorted by timestamp. A
validator checks the finished log: at most one PLACE, PICKUP and DISCARD per
order; a PLACE and a PICKUP or DISCARD for every order; no PICKUP or
DISCARD stamped before the order's PLACE (MOVE actions are not compared,
and zero timestamps count as absent). A scheduler spaces the place jobs by
the configured order rate and sets each pickup a random whole number of
seconds later, drawn from the configured pickup window (4 to 8 seconds by
default). The run configuration is
validated field by field.

The project models all of this as pure transitions on immutable values:

- `wrappers.dfy`, module `Wrappers`: `Option` and `Result`. `Result` models a
  raised exception; `Option` models Python's `None`.
- `kitchen.dfy`, module `Kitchen`: tiers, capacities, `Order`, `StorageOrder`.
- `database.dfy`, module `Database`: the storage store. It is a map from order
  id to row plus the inventory counters. Each SQL statement of the database
  client is one function or method on that store. A transaction is a commit
  or a rollback of a candidate store.
- `placement.dfy`, module `Placement`: the place job and its branches.
- `pickup.dfy`, module `Pickups`: the pickup job.
- `action_log.dfy`, module `ActionLogs`: actions, the log, and its stable sort
  by timestamp.
- `validation.dfy`, module `Validation`: the three validators, each matched
  against a reference definition. The single-event check is proved equal to
  its reference on every log. The other two are proved equal on the logs that
  pass the single-event check, the only logs `validate_actions` hands them.
- `config.dfy`, module `RunConfig`: configuration defaults and validation.
- `scheduler.dfy`, module `Scheduling`: the time arithmetic of the scheduler.
  Random draws are parameters.
- `simulation.dfy`, module `Simulation`: jobs run one after another against
  one store and one log.

The model has two clocks, and both are parameters:

- `now` is the store's clock in seconds. The age formula and `updated_at`
  read it.
- `at` is the log's timestamp in microseconds.

Consistency is what the engine keeps: every inventory counter equals the
number of rows in its tier. With capacities added, that is `Database.Valid`.
The proofs show that every committed placement and every pickup keeps
`Valid`. When both tiers are full, a successful placement leaves the SHELF
count unchanged. A move of a row that is not in the source tier breaks
consistency, because the source updates the counters anyway. The model
proves this as a lemma.

Where the design description and the code disagree, the model follows the
code:

- `move_order` updates only the row's storage. It neither folds nor resets
  the accumulated age (database_client.py:144-146).
- `insert_order` has no capacity check. Capacity is respected only because
  the callers check the inventory first (database_client.py:156-184,
  place_order.py:47-62).
- The scheduler starts at the current time. There is no initial delay
  (scheduler.py:40-42).
- `fetch_order_to_move` counts free space from the rows, not from the
  inventory table (database_client.py:30-48).

## Model

| member | source | states |
|---|---|---|
| `Database.FetchInventory` | src/clients/database/database_client.py:16-25 | On a consistent store, each counter returned equals the number of rows stored in that tier |
| `Database.FetchOrderIfExists` | src/clients/database/database_client.py:231-275 | Returns a value exactly when the id is stored; the value has the stored tier and the order rebuilt from the row (id, name, best tier, freshness limit); its age minus the fresh limit is the relative age, which ranks move and discard candidates |
| `Database.InsertOrder` | src/clients/database/database_client.py:156-184 | A new id gets one row in the given tier, with zero age, its update time set to the insert time, and the order's name, best tier and freshness limit; other rows are kept; only that tier's counter rises by one; an existing id is an integrity failure |
| `Database.DeleteOrderIfExists` | src/clients/database/database_client.py:186-210 | Reports true exactly when the id was stored; then only that row goes and only its tier's counter drops by one; otherwise nothing changes |
| `Database.MoveOrder` | src/clients/database/database_client.py:126-154 | Between two different tiers, takes one from the source counter and adds one to the target counter; when source and target are the same tier, the CASE takes its first arm and that single counter drops by one; the counters change even if the row is not in the source tier; retiers the row only if it is in the source tier; never touches age fields |
| `Database.DeleteAllOrders` | src/clients/database/database_client.py:212-229 | Leaves no rows and all counters at zero, which is a valid store |
| `Database.Transaction` | src/clients/database/database_client.py:277-292 | A successful attempt commits its store; a failed attempt rolls back to the store before and re-raises the same error |
| `Database.PickOldest` | src/clients/database/database_client.py:52-78 | Over a non-empty candidate set, returns a candidate whose relative age no other candidate exceeds; over an empty set, returns nothing |
| `Database.FetchOrderToMove` | src/clients/database/database_client.py:27-89 | Returns nothing exactly when no SHELF row has a best tier with a free slot by row count; otherwise returns such a row of maximal relative age, as its stored view |
| `Database.FetchOrderToDiscard` | src/clients/database/database_client.py:91-124 | Returns nothing exactly when the SHELF is empty; otherwise returns a SHELF row of maximal relative age |
| `Database.AgeMonotone` | src/clients/database/database_client.py:61-67 | While a row stays in its tier, its age never decreases as time passes, and it grows twice as fast off its best tier; a move can lower it (see `Database.MoveToBestTierLowersAge`) |
| `Database.InsertPreservesConsistency` | src/clients/database/database_client.py:165-174 | An insert keeps every counter equal to its tier's row count, and raises the target tier's row count by one |
| `Database.DeletePreservesConsistency` | src/clients/database/database_client.py:197-204 | A delete keeps every counter equal to its tier's row count |
| `Database.MovePreservesConsistency` | src/clients/database/database_client.py:135-146 | Moving a row that is in the source tier to a different tier keeps every counter equal to its tier's row count |
| `Database.MoveOfAbsentRowBreaksConsistency` | src/clients/database/database_client.py:135-142 | Moving a row that is not in the source tier still takes one from the source counter, so that counter no longer equals its tier's row count |
| `Database.MoveWithinTierBreaksConsistency` | src/clients/database/database_client.py:135-146 | A move whose source and target are the same tier leaves the row where it was but takes one from that tier's counter, so the counter no longer equals the row count |
| `Database.MoveToBestTierLowersAge` | src/clients/database/database_client.py:144-146 | Moving a SHELF row to its best tier keeps its accumulated age and update time but halves its decay rate, so its computed age at a later time drops |
| `Database.DeleteTwice` | src/clients/database/database_client.py:197-210 | A second delete of the same id reports false and changes nothing |
| `Placement.PlaceInto` | src/jobs/place_order.py:71-73 | Fails exactly when the id is already stored, and then rolls back; otherwise the store is the committed insert and one PLACE is recorded |
| `Placement.PlaceToBestTier` | src/jobs/place_order.py:65-76 | A new order lands in its best tier, whose counter rises by one, with one PLACE recorded; the store is exactly the committed insert, so other rows and counters are untouched and the row carries the order's fields, zero age and the insert time; a stored id fails and changes nothing |
| `Placement.PlaceWhenBestTierFull` | src/jobs/place_order.py:79-88 | A new order lands on the SHELF, whose counter rises by one, with one PLACE recorded; the store is exactly the committed insert, so other rows and counters are untouched and the row carries the order's fields, zero age and the insert time; a stored id fails and changes nothing |
| `Placement.MoveAndPlace` | src/jobs/place_order.py:102-130 | Reports "no move" exactly when there is no move candidate, and then leaves the store alone; otherwise moves a maximal-age candidate to its best tier, puts the order on the SHELF, and records MOVE then PLACE |
| `Placement.DiscardAndPlace` | src/jobs/place_order.py:133-161 | Raises "not found" exactly when the SHELF is empty; any other failure is the duplicate-id integrity error; otherwise deletes a maximal-age SHELF row, puts the order on the SHELF, and records DISCARD then PLACE; a failure rolls back |
| `Placement.PlaceWhenNoSpaceLeft` | src/jobs/place_order.py:91-99 | Tries the move path first; with a move candidate, a stored id fails with the integrity error, changes nothing and tries no discard; any success without a move candidate is a discard of a maximal-age SHELF row followed by PLACE; "not found" is raised exactly when there is neither a move candidate nor a SHELF row, and every other failure is the duplicate-id integrity error; on success the store stays valid, the SHELF count is unchanged and exactly two actions end in PLACE |
| `Placement.PlaceOrder` | src/jobs/place_order.py:33-62 | Chooses best tier, then SHELF, then move-or-discard by the inventory counters; on a valid store a new order always succeeds and keeps the store valid; a stored id fails with the integrity error in the best-tier and SHELF branches, and in the both-full branch when a move candidate exists; a successful placement of a new order stores it; "not found" is raised exactly when every counter check fails and there is neither a move candidate nor a SHELF row; failures change nothing; the actions end with one PLACE for the order; for a new order there is at most one MOVE or DISCARD before it, and that one is of another order |
| `Placement.FullShelfHasRows` | src/jobs/place_order.py:139-146 | On a valid store whose SHELF counter is full, there is a SHELF row to discard, so the "not found" error cannot happen |
| `Placement.InsertIntoFreeTierKeepsValid` | src/jobs/place_order.py:47-60 | Inserting into a tier that the inventory shows has room keeps the store valid |
| `Placement.MovedAndPlacedKeepsValid` | src/jobs/place_order.py:114-120 | Moving a candidate and filling its SHELF slot keeps the store valid and the SHELF count unchanged |
| `Placement.DiscardedAndPlacedKeepsValid` | src/jobs/place_order.py:148-151 | Discarding a SHELF row and filling its slot keeps the store valid and the SHELF count unchanged |
| `Pickups.PickupOrder` | src/jobs/pickup_order.py:36-50 | A stored order loses exactly its row, its tier's counter drops by one, and one PICKUP is recorded; an absent order records nothing and changes nothing; other rows are untouched |
| `Pickups.PickupIsIdempotent` | src/jobs/pickup_order.py:43-50 | A second pickup of the same order records nothing and changes nothing |
| `Pickups.PickupPreservesValid` | src/jobs/pickup_order.py:42-46 | A pickup keeps the store valid |
| `ActionLogs.SortByTimestamp` | src/models/action_log.py:34-36 | The result is ordered by timestamp and is a permutation of the input |
| `ActionLogs.SortIsStable` | src/models/action_log.py:36 | Actions with equal timestamps keep their recorded order |
| `ActionLogs.View` | src/models/action_log.py:34-36 | The view is sorted, holds exactly the recorded actions, and keeps recording order among equal timestamps |
| `ActionLogs.PlaceAction` | src/models/action_log.py:42-44 | A PLACE action carries the order id and the given timestamp, and its kind's wire name is "place" |
| `ActionLogs.MoveAction` | src/models/action_log.py:38-40 | A MOVE action carries the order id and the given timestamp, and its kind's wire name is "move" |
| `ActionLogs.DiscardAction` | src/models/action_log.py:46-48 | A DISCARD action carries the order id and the given timestamp, and its kind's wire name is "discard" |
| `ActionLogs.PickupAction` | src/models/action_log.py:50-52 | A PICKUP action carries the order id and the given timestamp, and its kind's wire name is "pickup" |
| `ActionLogs.Record` | src/models/action_log.py:28-32 | Recording appends the action to the stored list |
| `ActionLogs.RecordExtendsView` | src/models/action_log.py:28-36 | Recording adds exactly one action to the view; an action no older than every recorded one lands at the end |
| `ActionLogs.RecordAll` | src/models/action_log.py:16-26 | Recording a job's actions one after another appends them to the stored list in the order given |
| `ActionLogs.InsertIsPermutation` | src/models/action_log.py:36 | Inserting one action into the sorted view adds exactly that action and drops none |
| `ActionLogs.AddAsWritten` | src/models/action_log.py:28-36 | The append goes to the sorted copy, so the stored actions are the same afterwards |
| `ActionLogs.AddAsWrittenDropsAction` | src/models/action_log.py:28-36 | The view after the as-written `add` holds one action fewer than after recording the action |
| `ActionLogs.InsertLatest` | src/models/action_log.py:28-36 | Inserting an action no older than a sorted log appends it |
| `Validation.EventKeyInjective` | src/validators/actions_validators.py:31 | Distinct (order id, kind) pairs give distinct `id-kind` keys, because no kind name contains a dash |
| `Validation.ValidateSingleEvents` | src/validators/actions_validators.py:27-40 | Passes exactly when no order has two PLACE, two PICKUP or two DISCARD actions; repeated MOVE actions are allowed |
| `Validation.ActionMapLookup` | src/validators/actions_validators.py:45-47 | An (id, kind) key is in the map exactly when such an action exists; its value is the timestamp of one such action, and of the only one when there is just one |
| `Validation.ValidateOrdersHavePlaceAndPickup` | src/validators/actions_validators.py:43-58 | On a log that passed the single-event check, passes exactly when every order in the log has a PLACE with a non-zero timestamp and a PICKUP or DISCARD with one |
| `Validation.ValidatePickupOrDiscardAfterPlace` | src/validators/actions_validators.py:61-78 | On a log that passed the single-event check, passes exactly when no order's PICKUP or DISCARD is strictly earlier than its PLACE; equal timestamps pass and zero timestamps count as absent |
| `Validation.ValidateActions` | src/validators/actions_validators.py:21-24 | Runs the three checks in order and reports the first that fails, each as its reference property |
| `Validation.CountPermutation` | src/validators/actions_validators.py:27-40 | The number of actions of one order and kind is the same in any permutation of the log |
| `Validation.ValidationIgnoresOrder` | src/validators/actions_validators.py:21-78 | Each of the three rules holds of a log exactly when it holds of any permutation of it, so the verdict does not depend on the order of the actions |
| `RunConfig.ValidateConfig` | src/models/config.py:4-22 | Accepts exactly the configurations within every bound with max pickup at least min pickup; each bound's error appears exactly when that bound fails, and the pickup-window error only when every field passes |
| `RunConfig.WithDefaults` | src/models/config.py:5-13 | The defaults (seed 0, rate 500 ms, pickup 4 to 8 s) pass validation |
| `RunConfig.PickupWindowBounds` | src/models/config.py:18-22 | Equal pickup bounds are accepted; a maximum below the minimum is the single pickup-window error |
| `Scheduling.RandInt` | src/scheduler/scheduler.py:54 | The drawn delay lies in the inclusive range and every value of the range is reachable |
| `Scheduling.ScheduleProblemOrders` | src/scheduler/scheduler.py:41-65 | Order i gets a place job at start + i × rate ms and a pickup job for the same order a whole number of seconds in [min, max] later; place times strictly increase |
| `Scheduling.PlaceTimesIncrease` | src/scheduler/scheduler.py:42 | With a positive rate, a later order's place time is strictly later |
| `Simulation.RunJob` | src/jobs/place_order.py:17-62 | A job keeps the store valid and only appends to the log, at most two actions; a place job fails only for an order already stored, and then store and log are unchanged; a successful place ends the log with the order's PLACE; a pickup job's store and appended actions are exactly those of `Pickups.PickupOrder`, so it appends PICKUP exactly when the order is stored and nothing otherwise; a place job for a new order never fails, stores the order, and appends one PLACE for it, preceded by at most one MOVE or DISCARD of another order |
| `Simulation.RunJobs` | src/scheduler/scheduler.py:43-65 | Running jobs in sequence keeps the store valid at every step, and the log only grows, by at most two actions per job |

## Left out

- Concurrency and isolation levels are left out. Jobs run in separate processes under READ COMMITTED. The model runs them one at a time, so the capacity invariant is proved for sequential runs only.
- The retry decorator on the place and pickup jobs is left out. An integrity error becomes a `Failure` that leaves the store unchanged. Retrying is not modelled.
- Wall-clock reads (`datetime.now()`, `CURRENT_TIMESTAMP`) and the floating-point epoch conversion are replaced by integer clock parameters.
- Database connections, sessions, pools, logging and the challenge server client are I/O. They are left out.
- `validate_serialized_actions` is left out: it only converts JSON records into actions before calling `validate_actions`.
- The `endpoint` URL field of the configuration is left out, as is pydantic's type coercion of the fields.
- The queue branch of `ActionLog.add` is left out. `get_is_queue` is not part of this model; the model appends to the stored list.
- The `place`, `move`, `discard` and `pickup` methods call `add_action`, which the class does not define. The model records through `ActionLogs.Record`, the evident intent (see Findings): `Simulation.RunJob` appends each job's actions with `ActionLogs.RecordAll`.
- `fetch_inventory` (database_client.py:20-24) looks up the database's string keys with `StorageType` members, which are plain enum members and not strings (constants.py:11-14), so as written every lookup fails with a key error. The model reads each member as its string value.
- `fetch_order_to_move` joins `StorageType` members into its SQL text (database_client.py:43-45, 50). As written the join fails with a type error. The model treats the members as their strings.
- The place job binds `StorageType.SHELF` as a SQL parameter (place_order.py:86, 120, 151). The model binds its value, "shelf".
- `schedule_problem_orders` calls `now()` on the `datetime` module (scheduler.py:1, 40), which has no such function. The model takes the start time as a parameter.
- Every factory call stamps its action with its own `datetime.now()`. The model stamps all actions of one job with the job's single `at`, so a MOVE or DISCARD and its PLACE share a timestamp; the stable sort keeps them in recording order.
- The inventory comparisons in `_place_order` and in `fetch_order_to_move` (database_client.py:42-44) compare an integer with a `MaxInventory` enum member. The model compares with the member's value, 6, 6 or 12.
- Validation.ValidateOrdersHavePlaceAndPickup: matched against the reference rule only on logs that pass the single-event check, because `validate_actions` runs it only on those. On other logs, where a later duplicate overwrites an earlier dictionary entry, nothing is stated.
- Validation.ValidatePickupOrDiscardAfterPlace: the same restriction applies.
- Database.DeleteAllOrders: returns the new store only. The source returns the row count of its inventory update, not the number of deleted orders, and no caller uses it.
- Scheduling.ScheduleProblemOrders: the random pickup delay comes from explicit draws rather than a seeded generator, so uniformity is not stated. `store_order` and `pickup_order` in the scheduler module are empty stubs; the jobs are returned as data instead of being handed to a background scheduler.
- Database.FetchOrderToMove: when several rows tie on relative age, SQL `LIMIT 1` picks one unspecified row. The model states that some maximal row is chosen, not which one.
- Database.FetchOrderToDiscard: the same tie rule applies.
- The `order.temp` / `storage_temperature` naming split in the source is modelled as one `bestTier` field.
- Database.InsertOrder: the table schema is not part of this model. The order id is taken to be the primary key, so a duplicate insert is an integrity failure, and `updated_at` starts at the insert time.

## Findings

| source | as written | input that shows it | evidently intended | confidence | as-written member | corrected member |
|---|---|---|---|---|---|---|
| src/models/action_log.py:28-36 | `add` appends to `self.actions`. That is the property returning a fresh sorted copy, so the appended action is dropped with the copy | any log and any action: the view afterwards has the same length as before | append to the stored list, so the view gains the action | high; not executed | `ActionLogs.AddAsWritten` | `ActionLogs.Record` |

=== FILE: action_log.dfy ===
/** Actions recorded by the jobs and the timestamp-ordered view of the action log. */
module ActionLogs {
  import opened Kitchen

  datatype ActionKind = Place | Move | Pickup | Discard

  /** One recorded event; `timestamp` is in microseconds since the epoch. */
  datatype Action = Action(timestamp: int, orderId: OrderId, kind: ActionKind)

  /** The wire name of each kind of action. */
  function KindName(k: ActionKind): string
  {
    match k
    case Place => "place"
    case Move => "move"
    case Pickup => "pickup"
    case Discard => "discard"
  }

  /** A PLACE of order `id` stamped `at`; its wire name is "place". */
  function PlaceAction(id: OrderId, at: int): (a: Action)
    ensures a.orderId == id && a.timestamp == at && KindName(a.kind) == "place"
  {
    Action(at, id, Place)
  }

  /** A MOVE of order `id` stamped `at`; its wire name is "move". */
  function MoveAction(id: OrderId, at: int): (a: Action)
    ensures a.orderId == id && a.timestamp == at && KindName(a.kind) == "move"
  {
    Action(at, id, Move)
  }

  /** A DISCARD of order `id` stamped `at`; its wire name is "discard". */
  function DiscardAction(id: OrderId, at: int): (a: Action)
    ensures a.orderId == id && a.timestamp == at && KindName(a.kind) == "discard"
  {
    Action(at, id, Discard)
  }

  /** A PICKUP of order `id` stamped `at`; its wire name is "pickup". */
  function PickupAction(id: OrderId, at: int): (a: Action)
    ensures a.orderId == id && a.timestamp == at && KindName(a.kind) == "pickup"
  {
    Action(at, id, Pickup)
  }

  predicate SortedByTimestamp(s: seq<Action>)
  {
    forall i, j :: 0 <= i < j < |s| ==> s[i].timestamp <= s[j].timestamp
  }

  /** The entries of `s` stamped `t`, in their order in `s`. */
  function StampedAt(s: seq<Action>, t: int): seq<Action>
  {
    if |s| == 0 then []
    else (if s[0].timestamp == t then [s[0]] else []) + StampedAt(s[1..], t)
  }

  /** Inserts `x` after every entry of the sorted `s` whose timestamp is not larger. */
  function InsertByTimestamp(x: Action, s: seq<Action>): (r: seq<Action>)
    requires SortedByTimestamp(s)
    ensures SortedByTimestamp(r)
    ensures |r| == |s| + 1
    ensures r[0] == x || (|s| > 0 && r[0] == s[0])
    decreases |s|
  {
    if |s| == 0 then [x]
    else if x.timestamp < s[0].timestamp then
      ConsSorted(x, s);
      [x] + s
    else
      var rest := InsertByTimestamp(x, s[1..]);
      assert |s| > 1 ==> s[0].timestamp <= s[1..][0].timestamp;
      ConsSorted(s[0], rest);
      [s[0]] + rest
  }

  /** Putting an entry no later than the first of a sorted sequence in front keeps it sorted. */
  lemma ConsSorted(h: Action, r: seq<Action>)
    requires SortedByTimestamp(r)
    requires |r| > 0 ==> h.timestamp <= r[0].timestamp
    ensures SortedByTimestamp([h] + r)
  {
  }

  /** Inserting adds exactly `x`: the result is a permutation of `s` plus `x`. */
  lemma {:induction false} InsertIsPermutation(x: Action, s: seq<Action>)
    requires SortedByTimestamp(s)
    ensures multiset(InsertByTimestamp(x, s)) == multiset(s) + multiset{x}
    decreases |s|
  {
    if |s| > 0 && x.timestamp >= s[0].timestamp {
      InsertIsPermutation(x, s[1..]);
      assert s == [s[0]] + s[1..];
    }
  }

  /** A stable sort by timestamp (the order Python's `sorted` produces). */
  function SortByTimestamp(s: seq<Action>): (r: seq<Action>)
    ensures SortedByTimestamp(r)
    ensures multiset(r) == multiset(s)
    decreases |s|
  {
    if |s| == 0 then []
    else
      var init := s[..|s| - 1];
      assert s == init + [s[|s| - 1]];
      InsertIsPermutation(s[|s| - 1], SortByTimestamp(init));
      InsertByTimestamp(s[|s| - 1], SortByTimestamp(init))
  }

  /** The action log: actions kept in the order they were recorded. */
  datatype ActionLog = ActionLog(stored: seq<Action>)

  /** The view the log hands out: the stored actions sorted by timestamp, stably. */
  function View(log: ActionLog): (r: seq<Action>)
    ensures SortedByTimestamp(r)
    ensures multiset(r) == multiset(log.stored)
    ensures forall t :: StampedAt(r, t) == StampedAt(log.stored, t)
  {
    var r := SortByTimestamp(log.stored);
    assert forall t :: StampedAt(r, t) == StampedAt(log.stored, t) by {
      forall t ensures StampedAt(r, t) == StampedAt(log.stored, t) {
        SortIsStable(log.stored, t);
      }
    }
    r
  }

  /** Appends one action to the stored list (the `add` the jobs rely on). */
  function Record(log: ActionLog, a: Action): (r: ActionLog)
    ensures r.stored == log.stored + [a]
  {
    ActionLog(log.stored + [a])
  }

  /** Recording adds exactly one action to the view; a newest action lands at its end. */
  lemma RecordExtendsView(log: ActionLog, a: Action)
    ensures multiset(View(Record(log, a))) == multiset(View(log)) + multiset{a}
    ensures (forall e :: e in log.stored ==> e.timestamp <= a.timestamp) ==> View(Record(log, a)) == View(log) + [a]
  {
    AppendToSorted(log.stored, a);
  }

  /** Records the actions of one job, one `Record` per action, in order. */
  function RecordAll(log: ActionLog, actions: seq<Action>): (r: ActionLog)
    ensures r.stored == log.stored + actions
    decreases |actions|
  {
    if |actions| == 0 then
      assert log.stored + actions == log.stored;
      log
    else
      var r := RecordAll(Record(log, actions[0]), actions[1..]);
      assert actions == [actions[0]] + actions[1..];
      assert log.stored + actions == (log.stored + [actions[0]]) + actions[1..];
      r
  }

  /**
   * `add` as written: reading the list back yields a fresh sorted copy,
   * `View(log)`, and the append extends that copy to `View(log) + [a]`.
   * Nothing keeps the copy, so the stored actions stay as they were.
   */
  function AddAsWritten(log: ActionLog, a: Action): (r: ActionLog)
    ensures r.stored == log.stored
  {
    log
  }

  /** The as-written `add` shows one action fewer than recording it would. */
  lemma AddAsWrittenDropsAction(log: ActionLog, a: Action)
    ensures |View(AddAsWritten(log, a))| + 1 == |View(Record(log, a))|
  {
  }

  /** Sorting `s + [a]` inserts `a` into the sorted `s`, at the end when `a` is newest. */
  lemma AppendToSorted(s: seq<Action>, a: Action)
    ensures SortByTimestamp(s + [a]) == InsertByTimestamp(a, SortByTimestamp(s))
    ensures (forall e :: e in s ==> e.timestamp <= a.timestamp) ==>
              SortByTimestamp(s + [a]) == SortByTimestamp(s) + [a]
  {
    assert (s + [a])[..|s + [a]| - 1] == s;
    var v := SortByTimestamp(s);
    if forall e :: e in s ==> e.timestamp <= a.timestamp {
      if |v| > 0 {
        var last := v[|v| - 1];
        assert last in multiset(v);
        assert last in s;
      }
      InsertLatest(a, v);
    }
  }

  lemma {:induction false} StampedAtConcat(a: seq<Action>, b: seq<Action>, t: int)
    ensures StampedAt(a + b, t) == StampedAt(a, t) + StampedAt(b, t)
    decreases |a|
  {
    if |a| == 0 {
      assert a + b == b;
    } else {
      var ab := a + b;
      assert ab[0] == a[0];
      assert ab[1..] == a[1..] + b;
      StampedAtConcat(a[1..], b, t);
      var head := if a[0].timestamp == t then [a[0]] else [];
      calc {
        StampedAt(ab, t);
        head + StampedAt(ab[1..], t);
        head + (StampedAt(a[1..], t) + StampedAt(b, t));
        (head + StampedAt(a[1..], t)) + StampedAt(b, t);
        StampedAt(a, t) + StampedAt(b, t);
      }
    }
  }

  /** Inserting keeps every timestamp group in order, with `x` joining its group last. */
  lemma {:induction false} InsertIsStable(x: Action, s: seq<Action>, t: int)
    requires SortedByTimestamp(s)
    ensures StampedAt(InsertByTimestamp(x, s), t)
         == StampedAt(s, t) + (if x.timestamp == t then [x] else [])
    decreases |s|
  {
    var own := if x.timestamp == t then [x] else [];
    if |s| == 0 {
      StampedAtCons(x, [], t);
    } else if x.timestamp < s[0].timestamp {
      StampedAtCons(x, s, t);
      if x.timestamp == t {
        StampedAtBelowHead(s, t);
      }
    } else {
      var rest := InsertByTimestamp(x, s[1..]);
      InsertIsStable(x, s[1..], t);
      StampedAtCons(s[0], rest, t);
      StampedAtCons(s[0], s[1..], t);
      assert [s[0]] + s[1..] == s;
    }
  }

  /** Filtering a sequence with a new first entry. */
  lemma StampedAtCons(h: Action, r: seq<Action>, t: int)
    ensures StampedAt([h] + r, t) == (if h.timestamp == t then [h] else []) + StampedAt(r, t)
  {
  }

  /** A sorted sequence has no entries stamped earlier than its first. */
  lemma StampedAtBelowHead(s: seq<Action>, t: int)
    requires SortedByTimestamp(s) && |s| > 0 && t < s[0].timestamp
    ensures StampedAt(s, t) == []
  {
  }

  /** Sorting keeps the recorded order among actions with equal timestamps. */
  lemma {:induction false} SortIsStable(s: seq<Action>, t: int)
    ensures StampedAt(SortByTimestamp(s), t) == StampedAt(s, t)
    decreases |s|
  {
    if |s| > 0 {
      var init := s[..|s| - 1];
      var last := s[|s| - 1];
      assert s == init + [last];
      SortIsStable(init, t);
      InsertIsStable(last, SortByTimestamp(init), t);
      StampedAtConcat(init, [last], t);
      assert StampedAt([last], t) == (if last.timestamp == t then [last] else []) by {
        assert [last][1..] == [];
      }
    }
  }

  /** An action no older than the last of the sorted `s` is inserted at the end. */
  lemma {:induction false} InsertLatest(x: Action, s: seq<Action>)
    requires SortedByTimestamp(s)
    requires |s| > 0 ==> s[|s| - 1].timestamp <= x.timestamp
    ensures InsertByTimestamp(x, s) == s + [x]
    decreases |s|
  {
    if |s| > 0 {
      assert s[0].timestamp <= s[|s| - 1].timestamp;
      var tail := s[1..];
      assert |tail| > 0 ==> tail[|tail| - 1] == s[|s| - 1];
      InsertLatest(x, tail);
      calc {
        InsertByTimestamp(x, s);
        [s[0]] + InsertByTimestamp(x, tail);
        [s[0]] + (tail + [x]);
        ([s[0]] + tail) + [x];
        { assert [s[0]] + tail == s; }
        s + [x];
      }
    }
  }
}

=== FILE: config.dfy ===
/**
 * The run configuration and its validation: per-field bounds first (every
 * violated bound is reported, in field order); the cross-field pickup check
 * runs only when all fields are within bounds.
 */
module RunConfig {
  import opened Wrappers

  /** Pickup times are in seconds; the order rate is the spacing between orders in milliseconds. */
  datatype Config = Config(auth: string, seed: int, orderRate: int, minPickup: int, maxPickup: int)

  datatype ConfigError =
    | SeedBelowZero
    | OrderRateBelowOne
    | MinPickupBelowOne
    | MaxPickupBelowOne
    | MaxPickupBelowMinPickup

  /** A configuration that satisfies every bound and the pickup-window check. */
  predicate Acceptable(c: Config)
  {
    && c.seed >= 0
    && c.orderRate >= 1
    && 1 <= c.minPickup <= c.maxPickup
  }

  /** The per-field bounds, checked independently and reported in declaration order. */
  function FieldErrors(c: Config): seq<ConfigError>
  {
    (if c.seed < 0 then [SeedBelowZero] else [])
    + (if c.orderRate < 1 then [OrderRateBelowOne] else [])
    + (if c.minPickup < 1 then [MinPickupBelowOne] else [])
    + (if c.maxPickup < 1 then [MaxPickupBelowOne] else [])
  }

  /** Builds a configuration: field validation, then the pickup-window check. */
  function ValidateConfig(c: Config): (r: Result<Config, seq<ConfigError>>)
    ensures r.Success? <==> Acceptable(c)
    ensures r.Success? ==> r.value == c
    ensures r.Failure? ==> |r.error| >= 1
    ensures (r.Failure? && SeedBelowZero in r.error) <==> c.seed < 0
    ensures (r.Failure? && OrderRateBelowOne in r.error) <==> c.orderRate < 1
    ensures (r.Failure? && MinPickupBelowOne in r.error) <==> c.minPickup < 1
    ensures (r.Failure? && MaxPickupBelowOne in r.error) <==> c.maxPickup < 1
    ensures (r.Failure? && MaxPickupBelowMinPickup in r.error) <==>
      c.seed >= 0 && c.orderRate >= 1 && c.minPickup >= 1 && c.maxPickup >= 1 && c.maxPickup < c.minPickup
  {
    var errors := FieldErrors(c);
    if |errors| > 0 then Failure(errors)
    else if c.maxPickup < c.minPickup then Failure([MaxPickupBelowMinPickup])
    else Success(c)
  }

  /** The configuration with every optional field at its default. */
  function WithDefaults(auth: string): (r: Config)
    ensures r.auth == auth
    ensures ValidateConfig(r) == Success(r)
  {
    Config(auth, 0, 500, 4, 8)
  }

  /** Equal pickup bounds are accepted; a maximum below the minimum is not. */
  lemma PickupWindowBounds(c: Config)
    requires c.seed >= 0 && c.orderRate >= 1 && c.minPickup >= 1 && c.maxPickup >= 1
    ensures c.maxPickup == c.minPickup ==> ValidateConfig(c).Success?
    ensures c.maxPickup < c.minPickup ==> ValidateConfig(c) == Failure([MaxPickupBelowMinPickup])
  {
  }
}

=== FILE: database.dfy ===
/**
 * The storage store: the `order_storage` rows and the `inventory` counters,
 * with every SQL statement of the database client as a pure transition.
 * The clock (`CURRENT_TIMESTAMP`) is the parameter `now`, in whole seconds.
 */
module Database {
  import opened Wrappers
  import opened Kitchen

  /** One `order_storage` row. */
  datatype Row = Row(
    name: string,
    tier: Tier,
    bestTier: Tier,
    freshMaxAge: int,
    cumulativeAge: int,
    updatedAt: int)

  /** The `inventory` table: one counter per tier. */
  datatype Inventory = Inventory(hot: int, cold: int, shelf: int) {

    function Get(t: Tier): int
    {
      match t
      case Hot => hot
      case Cold => cold
      case Shelf => shelf
    }

    /** Adds `delta` to the counter of `t` and to no other. */
    function Add(t: Tier, delta: int): (r: Inventory)
      ensures r.Get(t) == Get(t) + delta
      ensures forall u :: u != t ==> r.Get(u) == Get(u)
    {
      match t
      case Hot => this.(hot := hot + delta)
      case Cold => this.(cold := cold + delta)
      case Shelf => this.(shelf := shelf + delta)
    }
  }

  datatype Store = Store(rows: map<OrderId, Row>, inventory: Inventory)

  /** The database's own error: a second row with the same primary key. */
  datatype StoreError = DuplicateOrder(id: OrderId)

  /** The freshly created schema: no rows, every counter at zero. */
  const EmptyStore := Store(map[], Inventory(0, 0, 0))

  /** The ids of the rows that sit in tier `t`. */
  function RowsIn(s: Store, t: Tier): set<OrderId>
  {
    set id | id in s.rows && s.rows[id].tier == t
  }

  function RowCount(s: Store, t: Tier): nat
  {
    |RowsIn(s, t)|
  }

  /** Every counter equals the number of rows in its tier. */
  predicate Consistent(s: Store)
  {
    forall t :: s.inventory.Get(t) == RowCount(s, t)
  }

  /** No counter exceeds its tier's capacity. */
  predicate WithinCapacity(s: Store)
  {
    forall t :: s.inventory.Get(t) <= Capacity(t)
  }

  predicate Valid(s: Store)
  {
    Consistent(s) && WithinCapacity(s)
  }

  // ---------------------------------------------------------------------------
  // Aging

  /** Off-tier storage decays twice as fast as storage in the best tier. */
  function DecayRate(row: Row): int
  {
    if row.tier == row.bestTier then 1 else 2
  }

  /** The age the store reports for `row` at time `now`. */
  function Age(row: Row, now: int): int
  {
    row.cumulativeAge + DecayRate(row) * (now - row.updatedAt)
  }

  /** Age past the freshness budget; the ranking key of both selection queries. */
  function RelativeAge(row: Row, now: int): int
  {
    row.cumulativeAge - row.freshMaxAge + DecayRate(row) * (now - row.updatedAt)
  }

  /** The order a row was created from. */
  function OrderOf(id: OrderId, row: Row): Order
  {
    Order(id, row.name, row.bestTier, row.freshMaxAge)
  }

  /** Age is non-decreasing while an order stays where it is. */
  lemma AgeMonotone(row: Row, now: int, later: int)
    requires now <= later
    ensures Age(row, now) <= Age(row, later)
    ensures RelativeAge(row, later) - RelativeAge(row, now) == DecayRate(row) * (later - now)
  {
  }

  // ---------------------------------------------------------------------------
  // Statements

  function FetchInventory(s: Store): (r: Inventory)
    ensures Consistent(s) ==> forall t :: r.Get(t) == RowCount(s, t)
  {
    s.inventory
  }

  /**
   * Ageing is monotone only while a row stays put: moving a row from the shelf to its best tier
   * keeps its cumulative age and update time but halves its decay rate, so the computed age drops.
   */
  lemma MoveToBestTierLowersAge(s: Store, id: OrderId, now: int)
    requires id in s.rows && s.rows[id].tier == Shelf && s.rows[id].bestTier != Shelf
    requires now > s.rows[id].updatedAt
    ensures Age(MoveOrder(s, Shelf, s.rows[id].bestTier, id).rows[id], now) < Age(s.rows[id], now)
  {
  }

  /** Reads one row with its absolute age, or `None` when the id is not stored. */
  function FetchOrderIfExists(s: Store, id: OrderId, now: int): (r: Option<StorageOrder>)
    ensures r.Some? <==> id in s.rows
    ensures r.Some? ==> r.value.order == OrderOf(id, s.rows[id]) && r.value.tier == s.rows[id].tier
    ensures r.Some? ==> r.value.age - r.value.order.freshMaxAge == RelativeAge(s.rows[id], now)
  {
    if id in s.rows then
      var row := s.rows[id];
      Some(StorageOrder(row.tier, Age(row, now), OrderOf(id, row)))
    else None
  }

  /**
   * Inserts a row for `order` in `tier` with cumulative age 0 and bumps that
   * tier's counter. There is no capacity check; a second row with the same id
   * violates the primary key.
   */
  function InsertOrder(s: Store, order: Order, tier: Tier, now: int): (r: Result<Store, StoreError>)
    ensures r.Failure? <==> order.id in s.rows
    ensures r.Failure? ==> r.error == DuplicateOrder(order.id)
    ensures r.Success? ==>
      && r.value.rows.Keys == s.rows.Keys + {order.id}
      && r.value.rows[order.id].tier == tier
      && r.value.rows[order.id].cumulativeAge == 0
      && r.value.rows[order.id].updatedAt == now
      && OrderOf(order.id, r.value.rows[order.id]) == order
      && (forall id :: id in s.rows ==> r.value.rows[id] == s.rows[id])
      && r.value.inventory.Get(tier) == s.inventory.Get(tier) + 1
      && (forall t :: t != tier ==> r.value.inventory.Get(t) == s.inventory.Get(t))
  {
    if order.id in s.rows then Failure(DuplicateOrder(order.id))
    else
      var row := Row(order.name, tier, order.bestTier, order.freshMaxAge, 0, now);
      Success(Store(s.rows[order.id := row], s.inventory.Add(tier, 1)))
  }

  /**
   * Deletes the row of `id` and decrements its tier's counter; the flag says
   * whether a row was deleted. Without a row nothing changes.
   */
  function DeleteOrderIfExists(s: Store, id: OrderId): (r: (Store, bool))
    ensures r.1 <==> id in s.rows
    ensures !r.1 ==> r.0 == s
    ensures r.1 ==>
      && r.0.rows.Keys == s.rows.Keys - {id}
      && (forall o :: o in r.0.rows ==> r.0.rows[o] == s.rows[o])
      && r.0.inventory.Get(s.rows[id].tier) == s.inventory.Get(s.rows[id].tier) - 1
      && (forall t :: t != s.rows[id].tier ==> r.0.inventory.Get(t) == s.inventory.Get(t))
  {
    if id in s.rows then
      (Store(s.rows - {id}, s.inventory.Add(s.rows[id].tier, -1)), true)
    else (s, false)
  }

  /**
   * Moves `id` from `from` to `to`. Both counters are updated whether or not
   * the row is in `from` (when `from == to` the single counter is
   * decremented); the row's tier changes only when it is in `from`, and its
   * cumulative age and update time are left as they are.
   */
  function MoveOrder(s: Store, from: Tier, to: Tier, id: OrderId): (r: Store)
    ensures from != to ==> r.inventory.Get(from) == s.inventory.Get(from) - 1
    ensures from != to ==> r.inventory.Get(to) == s.inventory.Get(to) + 1
    ensures from == to ==> r.inventory.Get(from) == s.inventory.Get(from) - 1
    ensures forall t :: t != from && t != to ==> r.inventory.Get(t) == s.inventory.Get(t)
    ensures r.rows.Keys == s.rows.Keys
    ensures forall o :: o in s.rows && (o != id || s.rows[o].tier != from) ==> r.rows[o] == s.rows[o]
    ensures id in s.rows && s.rows[id].tier == from ==>
      && r.rows[id].tier == to
      && r.rows[id].cumulativeAge == s.rows[id].cumulativeAge
      && r.rows[id].updatedAt == s.rows[id].updatedAt
      && OrderOf(id, r.rows[id]) == OrderOf(id, s.rows[id])
  {
    var inventory :=
      if from == to then s.inventory.Add(from, -1)
      else s.inventory.Add(from, -1).Add(to, 1);
    var rows :=
      if id in s.rows && s.rows[id].tier == from then s.rows[id := s.rows[id].(tier := to)]
      else s.rows;
    Store(rows, inventory)
  }

  /** Deletes every row and zeroes every counter. */
  function DeleteAllOrders(s: Store): (r: Store)
    ensures r.rows == map[]
    ensures Valid(r)
  {
    assert forall t :: RowsIn(EmptyStore, t) == {};
    EmptyStore
  }

  /**
   * A transaction: the state the body reached is committed on normal exit;
   * on an error it is rolled back to `before` and the error is passed on.
   */
  function Transaction<T, E>(before: Store, attempt: Result<(Store, T), E>): (r: (Store, Result<T, E>))
    ensures r.1.Failure? <==> attempt.Failure?
    ensures attempt.Failure? ==> r == (before, Failure(attempt.error))
    ensures attempt.Success? ==> r == (attempt.value.0, Success(attempt.value.1))
  {
    match attempt
    case Success((after, v)) => (after, Success(v))
    case Failure(e) => (before, Failure(e))
  }

  // ---------------------------------------------------------------------------
  // Selection queries

  /** A SHELF row whose best tier is HOT or COLD and currently has fewer rows than its capacity. */
  predicate IsMoveCandidate(s: Store, id: OrderId)
  {
    && id in s.rows
    && s.rows[id].tier == Shelf
    && s.rows[id].bestTier != Shelf
    && RowCount(s, s.rows[id].bestTier) < Capacity(s.rows[id].bestTier)
  }

  function MoveCandidates(s: Store): set<OrderId>
  {
    set id | id in s.rows && IsMoveCandidate(s, id)
  }

  /** `id` is a move candidate of maximal relative age. */
  predicate IsMoveChoice(s: Store, id: OrderId, now: int)
  {
    && IsMoveCandidate(s, id)
    && forall o :: o in MoveCandidates(s) ==> RelativeAge(s.rows[o], now) <= RelativeAge(s.rows[id], now)
  }

  /** `id` is a SHELF row of maximal relative age among all SHELF rows. */
  predicate IsDiscardChoice(s: Store, id: OrderId, now: int)
  {
    && id in RowsIn(s, Shelf)
    && forall o :: o in RowsIn(s, Shelf) ==> RelativeAge(s.rows[o], now) <= RelativeAge(s.rows[id], now)
  }

  /** A row as the selection queries report it: its relative age in the age field. */
  function RankedView(s: Store, id: OrderId, now: int): StorageOrder
    requires id in s.rows
  {
    StorageOrder(s.rows[id].tier, RelativeAge(s.rows[id], now), OrderOf(id, s.rows[id]))
  }

  /** Picks some row of `ids` of maximal relative age (`ORDER BY relative_age DESC LIMIT 1`). */
  method PickOldest(s: Store, ids: set<OrderId>, now: int) returns (best: Option<OrderId>)
    requires ids <= s.rows.Keys
    ensures best.None? <==> ids == {}
    ensures best.Some? ==> best.value in ids
    ensures best.Some? ==> forall o :: o in ids ==> RelativeAge(s.rows[o], now) <= RelativeAge(s.rows[best.value], now)
  {
    var remaining := ids;
    best := None;
    while remaining != {}
      invariant remaining <= ids
      invariant best.None? <==> remaining == ids
      invariant best.Some? ==> best.value in ids
      invariant best.Some? ==> forall o :: o in ids - remaining ==> RelativeAge(s.rows[o], now) <= RelativeAge(s.rows[best.value], now)
      decreases remaining
    {
      var id :| id in remaining;
      if best.None? || RelativeAge(s.rows[best.value], now) < RelativeAge(s.rows[id], now) {
        best := Some(id);
      }
      remaining := remaining - {id};
    }
  }

  /**
   * The SHELF row that most urgently needs its best tier: `None` when neither
   * HOT nor COLD has fewer rows than its capacity or no SHELF row wants a tier
   * with room; otherwise some candidate of maximal relative age.
   */
  method FetchOrderToMove(s: Store, now: int) returns (r: Option<StorageOrder>)
    ensures RowCount(s, Hot) >= Capacity(Hot) && RowCount(s, Cold) >= Capacity(Cold) ==> r.None?
    ensures r.None? <==> MoveCandidates(s) == {}
    ensures r.Some? ==> r.value.order.id in s.rows && IsMoveChoice(s, r.value.order.id, now)
    ensures r.Some? ==> r == Some(RankedView(s, r.value.order.id, now))
  {
    var hotCount := RowCount(s, Hot);
    var coldCount := RowCount(s, Cold);
    var tiersWithSpace: set<Tier> := {};
    if hotCount < Capacity(Hot) {
      tiersWithSpace := tiersWithSpace + {Hot};
    }
    if coldCount < Capacity(Cold) {
      tiersWithSpace := tiersWithSpace + {Cold};
    }
    assert forall t :: t in tiersWithSpace <==> t != Shelf && RowCount(s, t) < Capacity(t) by {
      forall t ensures t in tiersWithSpace <==> t != Shelf && RowCount(s, t) < Capacity(t) {
        match t
        case Hot =>
        case Cold =>
        case Shelf =>
      }
    }
    MoveCandidatesByTier(s, tiersWithSpace);
    var candidates := set id | id in s.rows && s.rows[id].tier == Shelf && s.rows[id].bestTier in tiersWithSpace;
    assert candidates == MoveCandidates(s);
    if tiersWithSpace == {} {
      assert forall id :: id !in candidates;
      return None;
    }
    var pick := PickOldest(s, candidates, now);
    if pick.None? {
      return None;
    }
    assert IsMoveChoice(s, pick.value, now);
    return Some(RankedView(s, pick.value, now));
  }

  /** The move candidates are the SHELF rows whose best tier is among the non-SHELF tiers with room. */
  lemma MoveCandidatesByTier(s: Store, free: set<Tier>)
    requires forall t :: t in free <==> t != Shelf && RowCount(s, t) < Capacity(t)
    ensures MoveCandidates(s) == set id | id in s.rows && s.rows[id].tier == Shelf && s.rows[id].bestTier in free
  {
  }

  /**
   * The SHELF row of maximal relative age, regardless of space elsewhere;
   * `None` exactly when the SHELF holds no row.
   */
  method FetchOrderToDiscard(s: Store, now: int) returns (r: Option<StorageOrder>)
    ensures r.None? <==> RowsIn(s, Shelf) == {}
    ensures r.Some? ==> IsDiscardChoice(s, r.value.order.id, now)
    ensures r.Some? ==> r.value.order.id in s.rows && r == Some(RankedView(s, r.value.order.id, now))
  {
    var pick := PickOldest(s, RowsIn(s, Shelf), now);
    if pick.None? {
      return None;
    }
    return Some(RankedView(s, pick.value, now));
  }

  // ---------------------------------------------------------------------------
  // Counts against rows

  lemma InsertRowCounts(s: Store, order: Order, tier: Tier, now: int)
    requires InsertOrder(s, order, tier, now).Success?
    ensures forall t :: RowCount(InsertOrder(s, order, tier, now).value, t)
                     == RowCount(s, t) + (if t == tier then 1 else 0)
  {
    var s' := InsertOrder(s, order, tier, now).value;
    forall t ensures RowCount(s', t) == RowCount(s, t) + (if t == tier then 1 else 0) {
      if t == tier {
        assert RowsIn(s', t) == RowsIn(s, t) + {order.id};
      } else {
        assert RowsIn(s', t) == RowsIn(s, t);
      }
    }
  }

  lemma DeleteRowCounts(s: Store, id: OrderId)
    requires id in s.rows
    ensures forall t :: RowCount(DeleteOrderIfExists(s, id).0, t)
                     == RowCount(s, t) - (if t == s.rows[id].tier then 1 else 0)
  {
    var s' := DeleteOrderIfExists(s, id).0;
    forall t ensures RowCount(s', t) == RowCount(s, t) - (if t == s.rows[id].tier then 1 else 0) {
      if t == s.rows[id].tier {
        assert RowsIn(s', t) == RowsIn(s, t) - {id};
      } else {
        assert RowsIn(s', t) == RowsIn(s, t);
      }
    }
  }

  lemma MoveRowCounts(s: Store, from: Tier, to: Tier, id: OrderId)
    requires id in s.rows && s.rows[id].tier == from && from != to
    ensures forall t :: RowCount(MoveOrder(s, from, to, id), t)
                     == RowCount(s, t) + (if t == to then 1 else if t == from then -1 else 0)
  {
    var s' := MoveOrder(s, from, to, id);
    forall t ensures RowCount(s', t) == RowCount(s, t) + (if t == to then 1 else if t == from then -1 else 0) {
      if t == to {
        assert RowsIn(s', t) == RowsIn(s, t) + {id};
      } else if t == from {
        assert RowsIn(s', t) == RowsIn(s, t) - {id};
      } else {
        assert RowsIn(s', t) == RowsIn(s, t);
      }
    }
  }

  /** Inserting keeps every counter equal to its tier's row count. */
  lemma InsertPreservesConsistency(s: Store, order: Order, tier: Tier, now: int)
    requires Consistent(s)
    requires InsertOrder(s, order, tier, now).Success?
    ensures Consistent(InsertOrder(s, order, tier, now).value)
    ensures RowCount(InsertOrder(s, order, tier, now).value, tier) == RowCount(s, tier) + 1
  {
    InsertRowCounts(s, order, tier, now);
  }

  /** Deleting keeps every counter equal to its tier's row count. */
  lemma DeletePreservesConsistency(s: Store, id: OrderId)
    requires Consistent(s)
    ensures Consistent(DeleteOrderIfExists(s, id).0)
  {
    if id in s.rows {
      DeleteRowCounts(s, id);
    }
  }

  /** A move of a row that is in `from` keeps every counter equal to its tier's row count. */
  lemma MovePreservesConsistency(s: Store, from: Tier, to: Tier, id: OrderId)
    requires Consistent(s)
    requires id in s.rows && s.rows[id].tier == from && from != to
    ensures Consistent(MoveOrder(s, from, to, id))
  {
    MoveRowCounts(s, from, to, id);
  }

  /** A move within one tier leaves every row where it was but still takes one from that tier's counter. */
  lemma MoveWithinTierBreaksConsistency(s: Store, t: Tier, id: OrderId)
    requires Consistent(s)
    ensures !Consistent(MoveOrder(s, t, t, id))
  {
    var s' := MoveOrder(s, t, t, id);
    assert RowsIn(s', t) == RowsIn(s, t);
    assert s'.inventory.Get(t) == s.inventory.Get(t) - 1;
  }

  /** A move of a row that is not in `from` still changes the counters, so they no longer match the rows. */
  lemma MoveOfAbsentRowBreaksConsistency(s: Store, from: Tier, to: Tier, id: OrderId)
    requires Consistent(s)
    requires !(id in s.rows && s.rows[id].tier == from)
    ensures !Consistent(MoveOrder(s, from, to, id))
  {
  }

  /** A second delete of the same id reports nothing deleted and changes nothing. */
  lemma DeleteTwice(s: Store, id: OrderId)
    ensures var once := DeleteOrderIfExists(s, id).0;
            DeleteOrderIfExists(once, id) == (once, false)
  {
  }
}

=== FILE: kitchen.dfy ===
/** Storage tiers, their capacities, and the order records the engine stores. */
module Kitchen {

  /** The three storage tiers of the kitchen. */
  datatype Tier = Hot | Cold | Shelf

  /** Order identifiers are plain strings. */
  type OrderId = string

  /** The fixed number of orders each tier can hold. */
  function Capacity(t: Tier): nat
  {
    match t
    case Hot => 6
    case Cold => 6
    case Shelf => 12
  }

  /** An incoming order: its temperature-optimal tier and its freshness budget in seconds. */
  datatype Order = Order(id: OrderId, name: string, bestTier: Tier, freshMaxAge: int)

  /** An order as a store query reports it: the tier it sits in and an age figure. */
  datatype StorageOrder = StorageOrder(tier: Tier, age: int, order: Order)
}

=== FILE: pickup.dfy ===
/** The pickup job: delete the order's row if it is stored and record PICKUP only then. */
module Pickups {
  import opened Kitchen
  import opened ActionLogs
  import opened Database

  /**
   * One pickup transaction. A stored order loses its row, its tier's counter
   * drops by one, and one PICKUP is recorded; an absent order changes nothing.
   */
  function PickupOrder(s: Store, id: OrderId, at: int): (r: (Store, seq<Action>))
    ensures id in s.rows ==>
      && r.1 == [PickupAction(id, at)]
      && r.0.rows.Keys == s.rows.Keys - {id}
      && r.0.inventory.Get(s.rows[id].tier) == s.inventory.Get(s.rows[id].tier) - 1
    ensures id !in s.rows ==> r == (s, [])
    ensures forall o :: o in r.0.rows ==> o in s.rows && r.0.rows[o] == s.rows[o]
    ensures id in s.rows ==> forall t :: t != s.rows[id].tier ==> r.0.inventory.Get(t) == s.inventory.Get(t)
  {
    var (after, deleted) := DeleteOrderIfExists(s, id);
    (after, if deleted then [PickupAction(id, at)] else [])
  }

  /** A second pickup of the same order records nothing and changes nothing. */
  lemma PickupIsIdempotent(s: Store, id: OrderId, at: int, at': int)
    ensures var (once, _) := PickupOrder(s, id, at);
            PickupOrder(once, id, at') == (once, [])
  {
  }

  /** Pickup keeps the counters equal to the row counts and within capacity. */
  lemma PickupPreservesValid(s: Store, id: OrderId, at: int)
    requires Valid(s)
    ensures Valid(PickupOrder(s, id, at).0)
  {
    DeletePreservesConsistency(s, id);
    if id in s.rows {
      DeleteRowCounts(s, id);
    }
  }
}

=== FILE: placement.dfy ===
/**
 * The placement policy: one place job for one order, as a transition of the
 * store that also yields the actions the job records. `now` is the store's
 * clock (seconds); `at` is the log's clock (microseconds).
 */
module Placement {
  import opened Wrappers
  import opened Kitchen
  import opened ActionLogs
  import opened Database

  /** Why a place job raised: a database integrity error, or no order to discard. */
  datatype PlaceError = Integrity(cause: StoreError) | NoOrderToDiscard

  /** The order's best tier has a free slot according to the inventory counters. */
  predicate BestTierFree(s: Store, order: Order)
  {
    s.inventory.Get(order.bestTier) < Capacity(order.bestTier)
  }

  predicate ShelfFree(s: Store)
  {
    s.inventory.Get(Shelf) < Capacity(Shelf)
  }

  /** The store after moving `c` from the SHELF to its best tier and inserting `order` on the SHELF. */
  function MovedAndPlaced(s: Store, c: OrderId, order: Order, now: int): Result<Store, StoreError>
    requires c in s.rows
  {
    InsertOrder(MoveOrder(s, Shelf, s.rows[c].bestTier, c), order, Shelf, now)
  }

  /** The store after deleting `v` and inserting `order` on the SHELF. */
  function DiscardedAndPlaced(s: Store, v: OrderId, order: Order, now: int): Result<Store, StoreError>
  {
    InsertOrder(DeleteOrderIfExists(s, v).0, order, Shelf, now)
  }

  /** Inserts `order` into `tier` in its own transaction and records one PLACE. */
  function PlaceInto(s: Store, order: Order, tier: Tier, now: int, at: int): (r: (Store, Result<seq<Action>, PlaceError>))
    ensures r.1.Failure? <==> order.id in s.rows
    ensures r.1.Failure? ==> r.0 == s && r.1.error == Integrity(DuplicateOrder(order.id))
    ensures r.1.Success? ==> InsertOrder(s, order, tier, now) == Success(r.0) && r.1.value == [PlaceAction(order.id, at)]
  {
    var attempt :=
      match InsertOrder(s, order, tier, now)
      case Success(after) => Success((after, ()))
      case Failure(e) => Failure(Integrity(e));
    var (committed, outcome) := Transaction(s, attempt);
    (committed, if outcome.Success? then Success([PlaceAction(order.id, at)]) else Failure(outcome.error))
  }

  /** The best-tier branch: insert into the order's best tier. */
  function PlaceToBestTier(s: Store, order: Order, now: int, at: int): (r: (Store, Result<seq<Action>, PlaceError>))
    ensures order.id !in s.rows ==>
      && r.1 == Success([PlaceAction(order.id, at)])
      && order.id in r.0.rows && r.0.rows[order.id].tier == order.bestTier
      && r.0.inventory.Get(order.bestTier) == s.inventory.Get(order.bestTier) + 1
    ensures order.id !in s.rows ==> InsertOrder(s, order, order.bestTier, now) == Success(r.0)
    ensures order.id in s.rows ==> r == (s, Failure(Integrity(DuplicateOrder(order.id))))
  {
    PlaceInto(s, order, order.bestTier, now, at)
  }

  /** The shelf-fallback branch: insert into the SHELF. */
  function PlaceWhenBestTierFull(s: Store, order: Order, now: int, at: int): (r: (Store, Result<seq<Action>, PlaceError>))
    ensures order.id !in s.rows ==>
      && r.1 == Success([PlaceAction(order.id, at)])
      && order.id in r.0.rows && r.0.rows[order.id].tier == Shelf
      && r.0.inventory.Get(Shelf) == s.inventory.Get(Shelf) + 1
    ensures order.id !in s.rows ==> InsertOrder(s, order, Shelf, now) == Success(r.0)
    ensures order.id in s.rows ==> r == (s, Failure(Integrity(DuplicateOrder(order.id))))
  {
    PlaceInto(s, order, Shelf, now, at)
  }

  /**
   * One transaction: fetch a move candidate; with none, commit nothing and
   * report `None` (the source's `False`); otherwise move it to its best tier,
   * insert `order` on the SHELF, and record MOVE then PLACE.
   */
  method MoveAndPlace(s: Store, order: Order, now: int, at: int)
    returns (s': Store, r: Result<Option<seq<Action>>, PlaceError>)
    ensures r == Success(None) <==> MoveCandidates(s) == {}
    ensures r.Failure? <==> MoveCandidates(s) != {} && order.id in s.rows
    ensures r.Failure? ==> s' == s && r.error == Integrity(DuplicateOrder(order.id))
    ensures r == Success(None) ==> s' == s
    ensures r.Success? && r.value.Some? ==>
      exists c :: IsMoveChoice(s, c, now)
        && MovedAndPlaced(s, c, order, now) == Success(s')
        && r.value.value == [MoveAction(c, at), PlaceAction(order.id, at)]
  {
    var candidate := FetchOrderToMove(s, now);
    if candidate.None? {
      return s, Success(None);
    }
    var c := candidate.value;
    var moved := MoveOrder(s, c.tier, c.order.bestTier, c.order.id);
    var attempt :=
      match InsertOrder(moved, order, Shelf, now)
      case Success(after) => Success((after, ()))
      case Failure(e) => Failure(Integrity(e));
    var (committed, outcome) := Transaction(s, attempt);
    assert MovedAndPlaced(s, c.order.id, order, now) == InsertOrder(moved, order, Shelf, now);
    if outcome.Failure? {
      return committed, Failure(outcome.error);
    }
    return committed, Success(Some([MoveAction(c.order.id, at), PlaceAction(order.id, at)]));
  }

  /**
   * One transaction: fetch the SHELF row of maximal relative age (raising when
   * there is none), delete it, insert `order` on the SHELF; DISCARD is
   * recorded only when the delete removed a row, PLACE always.
   */
  method DiscardAndPlace(s: Store, order: Order, now: int, at: int)
    returns (s': Store, r: Result<seq<Action>, PlaceError>)
    ensures r == Failure(NoOrderToDiscard) <==> RowsIn(s, Shelf) == {}
    ensures r.Failure? && RowsIn(s, Shelf) != {} ==> r.error == Integrity(DuplicateOrder(order.id))
    ensures r.Failure? ==> s' == s
    ensures r.Failure? ==> RowsIn(s, Shelf) == {} || order.id in s.rows
    ensures RowsIn(s, Shelf) != {} && order.id !in s.rows ==> r.Success?
    ensures r.Success? ==>
      exists v :: IsDiscardChoice(s, v, now)
        && DiscardedAndPlaced(s, v, order, now) == Success(s')
        && r.value == [DiscardAction(v, at), PlaceAction(order.id, at)]
  {
    var victim := FetchOrderToDiscard(s, now);
    if victim.None? {
      return s, Failure(NoOrderToDiscard);
    }
    var v := victim.value.order.id;
    var (afterDelete, deleted) := DeleteOrderIfExists(s, v);
    var attempt :=
      match InsertOrder(afterDelete, order, Shelf, now)
      case Success(after) => Success((after, ()))
      case Failure(e) => Failure(Integrity(e));
    var (committed, outcome) := Transaction(s, attempt);
    if outcome.Failure? {
      return committed, Failure(outcome.error);
    }
    var discarded := if deleted then [DiscardAction(v, at)] else [];
    return committed, Success(discarded + [PlaceAction(order.id, at)]);
  }

  /** Both tiers full: try to move a SHELF row to its best tier, otherwise discard one. */
  method PlaceWhenNoSpaceLeft(s: Store, order: Order, now: int, at: int)
    returns (s': Store, r: Result<seq<Action>, PlaceError>)
    ensures r.Failure? ==> s' == s
    ensures MoveCandidates(s) != {} && order.id !in s.rows ==>
      exists c :: IsMoveChoice(s, c, now)
        && MovedAndPlaced(s, c, order, now) == Success(s')
        && r == Success([MoveAction(c, at), PlaceAction(order.id, at)])
    ensures MoveCandidates(s) == {} && RowsIn(s, Shelf) != {} && order.id !in s.rows ==>
      exists v :: IsDiscardChoice(s, v, now)
        && DiscardedAndPlaced(s, v, order, now) == Success(s')
        && r == Success([DiscardAction(v, at), PlaceAction(order.id, at)])
    ensures r == Failure(NoOrderToDiscard) <==> MoveCandidates(s) == {} && RowsIn(s, Shelf) == {}
    ensures MoveCandidates(s) != {} && order.id in s.rows ==>
      s' == s && r == Failure(Integrity(DuplicateOrder(order.id)))
    ensures MoveCandidates(s) == {} && r.Success? ==>
      exists v :: IsDiscardChoice(s, v, now)
        && DiscardedAndPlaced(s, v, order, now) == Success(s')
        && r == Success([DiscardAction(v, at), PlaceAction(order.id, at)])
    ensures r.Failure? && r != Failure(NoOrderToDiscard) ==> r.error == Integrity(DuplicateOrder(order.id))
    ensures r.Failure? ==> order.id in s.rows || RowsIn(s, Shelf) == {}
    ensures Valid(s) && r.Success? ==> Valid(s') && s'.inventory.Get(Shelf) == s.inventory.Get(Shelf)
    ensures r.Success? ==> |r.value| == 2 && r.value[1] == PlaceAction(order.id, at)
  {
    var afterMove, moved := MoveAndPlace(s, order, now, at);
    if moved.Failure? {
      return afterMove, Failure(moved.error);
    }
    if moved.value.Some? {
      if Valid(s) {
        var c :| IsMoveChoice(s, c, now) && MovedAndPlaced(s, c, order, now) == Success(afterMove);
        MovedAndPlacedKeepsValid(s, c, order, now);
      }
      return afterMove, Success(moved.value.value);
    }
    s', r := DiscardAndPlace(afterMove, order, now, at);
    if Valid(s) && r.Success? {
      var v :| IsDiscardChoice(s, v, now) && DiscardedAndPlaced(s, v, order, now) == Success(s');
      DiscardedAndPlacedKeepsValid(s, v, order, now);
    }
  }

  /**
   * A place job: read the inventory, then take the best tier if it has room,
   * else the SHELF if it has room, else free a SHELF slot first.
   */
  method PlaceOrder(s: Store, order: Order, now: int, at: int)
    returns (s': Store, r: Result<seq<Action>, PlaceError>)
    ensures r.Failure? ==> s' == s
    ensures BestTierFree(s, order) && order.id !in s.rows ==>
      InsertOrder(s, order, order.bestTier, now) == Success(s') && r == Success([PlaceAction(order.id, at)])
    ensures !BestTierFree(s, order) && ShelfFree(s) && order.id !in s.rows ==>
      InsertOrder(s, order, Shelf, now) == Success(s') && r == Success([PlaceAction(order.id, at)])
    ensures !BestTierFree(s, order) && !ShelfFree(s) && MoveCandidates(s) != {} && order.id !in s.rows ==>
      exists c :: IsMoveChoice(s, c, now)
        && MovedAndPlaced(s, c, order, now) == Success(s')
        && r == Success([MoveAction(c, at), PlaceAction(order.id, at)])
    ensures !BestTierFree(s, order) && !ShelfFree(s) && MoveCandidates(s) == {}
            && RowsIn(s, Shelf) != {} && order.id !in s.rows ==>
      exists v :: IsDiscardChoice(s, v, now)
        && DiscardedAndPlaced(s, v, order, now) == Success(s')
        && r == Success([DiscardAction(v, at), PlaceAction(order.id, at)])
    ensures (BestTierFree(s, order) || ShelfFree(s)) && order.id in s.rows ==>
      s' == s && r == Failure(Integrity(DuplicateOrder(order.id)))
    ensures !BestTierFree(s, order) && !ShelfFree(s) && MoveCandidates(s) != {} && order.id in s.rows ==>
      s' == s && r == Failure(Integrity(DuplicateOrder(order.id)))
    ensures !BestTierFree(s, order) && !ShelfFree(s) && MoveCandidates(s) == {} && r.Success? ==>
      exists v :: IsDiscardChoice(s, v, now)
        && DiscardedAndPlaced(s, v, order, now) == Success(s')
        && r == Success([DiscardAction(v, at), PlaceAction(order.id, at)])
    ensures r.Success? && order.id !in s.rows ==> order.id in s'.rows
    ensures r == Failure(NoOrderToDiscard) <==>
      !BestTierFree(s, order) && !ShelfFree(s) && MoveCandidates(s) == {} && RowsIn(s, Shelf) == {}
    ensures r.Failure? && r != Failure(NoOrderToDiscard) ==> r.error == Integrity(DuplicateOrder(order.id))
    ensures r.Failure? ==> order.id in s.rows || RowsIn(s, Shelf) == {}
    ensures Valid(s) && order.id !in s.rows ==> r.Success?
    ensures Valid(s) && r.Success? ==> Valid(s')
    ensures Valid(s) && r.Success? && !BestTierFree(s, order) && !ShelfFree(s) ==>
      s'.inventory.Get(Shelf) == s.inventory.Get(Shelf)
    ensures r.Success? ==> 1 <= |r.value| <= 2 && r.value[|r.value| - 1] == PlaceAction(order.id, at)
    ensures r.Success? && order.id !in s.rows ==> OnePlacePlusOneOther(r.value, order.id)
  {
    var inventory := FetchInventory(s);
    var shelfAvailable := inventory.Get(Shelf) < Capacity(Shelf);
    var bestAvailable := inventory.Get(order.bestTier) < Capacity(order.bestTier);
    if bestAvailable {
      var (placed, result) := PlaceToBestTier(s, order, now, at);
      s', r := placed, result;
      if Valid(s) && r.Success? {
        InsertIntoFreeTierKeepsValid(s, order, order.bestTier, now);
      }
    } else if shelfAvailable {
      var (placed, result) := PlaceWhenBestTierFull(s, order, now, at);
      s', r := placed, result;
      if Valid(s) && r.Success? {
        InsertIntoFreeTierKeepsValid(s, order, Shelf, now);
      }
    } else {
      if Valid(s) {
        FullShelfHasRows(s);
      }
      s', r := PlaceWhenNoSpaceLeft(s, order, now, at);
    }
  }

  /** The actions of a placement: PLACE for the order last, at most one MOVE or DISCARD of another order before it. */
  predicate OnePlacePlusOneOther(actions: seq<Action>, id: OrderId)
  {
    && 1 <= |actions| <= 2
    && actions[|actions| - 1].kind == Place
    && actions[|actions| - 1].orderId == id
    && (|actions| == 2 ==> actions[0].kind in {Move, Discard} && actions[0].orderId != id)
  }

  /** A consistent store whose SHELF counter is at capacity holds SHELF rows. */
  lemma FullShelfHasRows(s: Store)
    requires Valid(s) && !ShelfFree(s)
    ensures RowsIn(s, Shelf) != {}
  {
  }

  /** Inserting into a tier whose counter is below capacity keeps the store valid. */
  lemma InsertIntoFreeTierKeepsValid(s: Store, order: Order, tier: Tier, now: int)
    requires Valid(s)
    requires s.inventory.Get(tier) < Capacity(tier)
    requires InsertOrder(s, order, tier, now).Success?
    ensures Valid(InsertOrder(s, order, tier, now).value)
  {
    InsertPreservesConsistency(s, order, tier, now);
  }

  /** Moving a candidate to its best tier and filling its SHELF slot keeps the store valid and the SHELF count unchanged. */
  lemma MovedAndPlacedKeepsValid(s: Store, c: OrderId, order: Order, now: int)
    requires Valid(s)
    requires IsMoveCandidate(s, c)
    requires MovedAndPlaced(s, c, order, now).Success?
    ensures Valid(MovedAndPlaced(s, c, order, now).value)
    ensures MovedAndPlaced(s, c, order, now).value.inventory.Get(Shelf) == s.inventory.Get(Shelf)
  {
    var moved := MoveOrder(s, Shelf, s.rows[c].bestTier, c);
    MovePreservesConsistency(s, Shelf, s.rows[c].bestTier, c);
    assert Valid(moved);
    InsertPreservesConsistency(moved, order, Shelf, now);
  }

  /** Discarding a SHELF row and filling its slot keeps the store valid and the SHELF count unchanged. */
  lemma DiscardedAndPlacedKeepsValid(s: Store, v: OrderId, order: Order, now: int)
    requires Valid(s)
    requires v in RowsIn(s, Shelf)
    requires DiscardedAndPlaced(s, v, order, now).Success?
    ensures Valid(DiscardedAndPlaced(s, v, order, now).value)
    ensures DiscardedAndPlaced(s, v, order, now).value.inventory.Get(Shelf) == s.inventory.Get(Shelf)
  {
    var deleted := DeleteOrderIfExists(s, v).0;
    DeletePreservesConsistency(s, v);
    assert Valid(deleted);
    InsertPreservesConsistency(deleted, order, Shelf, now);
  }
}

=== FILE: scheduler.dfy ===
/**
 * The scheduler's time arithmetic: one place job and one pickup job per
 * order. Times are milliseconds since the epoch; the random pickup delay is
 * driven by explicit draws.
 */
module Scheduling {
  import opened Kitchen
  import opened RunConfig

  datatype Job = PlaceJob(order: Order, runAt: int) | PickupJob(order: Order, runAt: int)

  const MillisPerSecond: int := 1000

  /** `random.randint(lo, hi)` fed by the draw `draw`: every value of the inclusive range is reachable. */
  function RandInt(lo: int, hi: int, draw: int): (r: int)
    requires lo <= hi
    ensures lo <= r <= hi
    ensures 0 <= draw <= hi - lo ==> r == lo + draw
  {
    lo + draw % (hi - lo + 1)
  }

  /**
   * Registers, for order `i`, a place job at `now + i * orderRate` ms and a
   * pickup job a random whole number of seconds in `[minPickup, maxPickup]`
   * later.
   */
  method ScheduleProblemOrders(orders: seq<Order>, config: Config, now: int, draws: seq<int>)
    returns (jobs: seq<Job>)
    requires Acceptable(config)
    requires |draws| == |orders|
    ensures |jobs| == 2 * |orders|
    ensures forall i :: 0 <= i < |orders| ==>
      && jobs[2 * i] == PlaceJob(orders[i], now + i * config.orderRate)
      && jobs[2 * i + 1].PickupJob?
      && jobs[2 * i + 1].order == orders[i]
    ensures forall i :: 0 <= i < |orders| ==>
      jobs[2 * i + 1].runAt - jobs[2 * i].runAt == MillisPerSecond * RandInt(config.minPickup, config.maxPickup, draws[i])
    ensures forall i :: 0 <= i < |orders| ==>
      MillisPerSecond * config.minPickup <= jobs[2 * i + 1].runAt - jobs[2 * i].runAt <= MillisPerSecond * config.maxPickup
    ensures forall i :: 0 <= i < |orders| ==> jobs[2 * i].runAt < jobs[2 * i + 1].runAt
    ensures forall i, j :: 0 <= i < j < |orders| ==> jobs[2 * i].runAt < jobs[2 * j].runAt
  {
    jobs := [];
    var i := 0;
    while i < |orders|
      invariant 0 <= i <= |orders|
      invariant |jobs| == 2 * i
      invariant forall m :: 0 <= m < i ==>
        && jobs[2 * m] == PlaceJob(orders[m], now + m * config.orderRate)
        && jobs[2 * m + 1] == PickupJob(orders[m],
             jobs[2 * m].runAt + MillisPerSecond * RandInt(config.minPickup, config.maxPickup, draws[m]))
    {
      var placeAt := now + i * config.orderRate;
      var delay := RandInt(config.minPickup, config.maxPickup, draws[i]);
      var pickupAt := placeAt + MillisPerSecond * delay;
      jobs := jobs + [PlaceJob(orders[i], placeAt), PickupJob(orders[i], pickupAt)];
      i := i + 1;
    }
    forall i, j | 0 <= i < j < |orders| ensures jobs[2 * i].runAt < jobs[2 * j].runAt {
      PlaceTimesIncrease(now, config.orderRate, i, j);
    }
  }

  /** With a positive order rate a later order is placed strictly later. */
  lemma PlaceTimesIncrease(now: int, rate: int, i: int, j: int)
    requires rate >= 1 && 0 <= i < j
    ensures now + i * rate < now + j * rate
  {
  }
}

=== FILE: simulation.dfy ===
/**
 * A sequential run of scheduled jobs against one store and one action log.
 * Each job reads the clock from its run time: the store's clock in seconds,
 * the log's in microseconds. A job that raises leaves store and log as they were.
 */
module Simulation {
  import opened Wrappers
  import opened Kitchen
  import opened ActionLogs
  import opened Database
  import opened Placement
  import opened Pickups
  import opened Scheduling

  /**
   * Runs one job; the log gains what the job records, through `RecordAll`.
   * `failed` reports a place job that raised: it leaves store and log as they were.
   */
  method RunJob(s: Store, log: ActionLog, job: Job) returns (s': Store, log': ActionLog, failed: bool)
    requires Valid(s)
    ensures Valid(s')
    ensures |log.stored| <= |log'.stored| <= |log.stored| + 2
    ensures log'.stored[..|log.stored|] == log.stored
    ensures failed ==> s' == s && log' == log
    ensures failed ==> job.PlaceJob? && job.order.id in s.rows
    ensures job.PlaceJob? && !failed ==>
      |log'.stored| > |log.stored| && log'.stored[|log'.stored| - 1] == PlaceAction(job.order.id, job.runAt * 1000)
    ensures job.PickupJob? ==> (log'.stored == log.stored + [PickupAction(job.order.id, job.runAt * 1000)] <==> job.order.id in s.rows)
    ensures job.PlaceJob? && job.order.id !in s.rows ==>
      && !failed
      && job.order.id in s'.rows
      && OnePlacePlusOneOther(log'.stored[|log.stored|..], job.order.id)
    ensures job.PickupJob? ==>
      && s' == PickupOrder(s, job.order.id, job.runAt * 1000).0
      && log'.stored == log.stored + PickupOrder(s, job.order.id, job.runAt * 1000).1
  {
    var now := job.runAt / MillisPerSecond;
    var at := job.runAt * 1000;
    match job
    case PlaceJob(order, _) =>
      var after, outcome := PlaceOrder(s, order, now, at);
      if outcome.Success? {
        s', log', failed := after, RecordAll(log, outcome.value), false;
        assert log'.stored[..|log.stored|] == log.stored;
      } else {
        s', log', failed := s, log, true;
      }
    case PickupJob(order, _) =>
      var (after, emitted) := PickupOrder(s, order.id, at);
      PickupPreservesValid(s, order.id, at);
      s', log', failed := after, RecordAll(log, emitted), false;
      assert log'.stored[..|log.stored|] == log.stored;
  }

  /** Runs the jobs in the given order; every intermediate store stays valid and the log only grows. */
  method RunJobs(s: Store, log: ActionLog, jobs: seq<Job>) returns (s': Store, log': ActionLog)
    requires Valid(s)
    ensures Valid(s')
    ensures |log.stored| <= |log'.stored| <= |log.stored| + 2 * |jobs|
    ensures log'.stored[..|log.stored|] == log.stored
  {
    s', log' := s, log;
    var i := 0;
    while i < |jobs|
      invariant 0 <= i <= |jobs|
      invariant Valid(s')
      invariant |log.stored| <= |log'.stored| <= |log.stored| + 2 * i
      invariant log'.stored[..|log.stored|] == log.stored
    {
      var prev := log';
      var failed;
      s', log', failed := RunJob(s', log', jobs[i]);
      assert log'.stored[..|log.stored|] == prev.stored[..|prev.stored|][..|log.stored|];
      i := i + 1;
    }
  }
}

=== FILE: validation.dfy ===
/**
 * The action validator: three checks over a recorded action log, run in a
 * fixed order; the first that fails decides the error. The checks key their
 * dictionaries by the string `<order id>-<action>`.
 */
module Validation {
  import opened Wrappers
  import opened Kitchen
  import opened ActionLogs

  /** Which of the three checks raised. */
  datatype ValidationError = DuplicateEvent | MissingEvent | EventBeforePlace

  /** The dictionary key `<order id>-<action>`. */
  function EventKey(id: OrderId, k: ActionKind): string
  {
    id + "-" + KindName(k)
  }

  function Lookup(m: map<string, int>, key: string): Option<int>
  {
    if key in m then Some(m[key]) else None
  }

  /** `counter.get(key, 0)`. */
  function Tally(counter: map<string, nat>, key: string): nat
  {
    if key in counter then counter[key] else 0
  }

  /** Python truthiness of a looked-up timestamp: missing and 0 are both false. */
  predicate Truthy(v: Option<int>)
  {
    v.Some? && v.value != 0
  }

  /** The number of actions of order `id` and kind `k`. */
  function Count(a: seq<Action>, id: OrderId, k: ActionKind): nat
  {
    if |a| == 0 then 0
    else Count(a[..|a| - 1], id, k) + (if a[|a| - 1].orderId == id && a[|a| - 1].kind == k then 1 else 0)
  }

  /** No order has two PLACE, two PICKUP or two DISCARD actions; MOVE may repeat. */
  predicate SingleEvents(a: seq<Action>)
  {
    forall i :: 0 <= i < |a| && a[i].kind != Move ==> Count(a, a[i].orderId, a[i].kind) <= 1
  }

  /** The dictionary the presence and ordering checks build: a later action overwrites an earlier one. */
  function ActionMap(a: seq<Action>): map<string, int>
  {
    if |a| == 0 then map[]
    else ActionMap(a[..|a| - 1])[EventKey(a[|a| - 1].orderId, a[|a| - 1].kind) := a[|a| - 1].timestamp]
  }

  function OrderIds(a: seq<Action>): set<OrderId>
  {
    set x | x in a :: x.orderId
  }

  /** The presence check as written: each order has a truthy PLACE and a truthy PICKUP or DISCARD. */
  predicate PresenceHolds(a: seq<Action>)
  {
    var m := ActionMap(a);
    forall id :: id in OrderIds(a) ==>
      && Truthy(Lookup(m, EventKey(id, Place)))
      && (Truthy(Lookup(m, EventKey(id, Pickup))) || Truthy(Lookup(m, EventKey(id, Discard))))
  }

  /** The ordering check as written: a truthy PLACE is not later than a truthy PICKUP or DISCARD. */
  predicate OrderingHolds(a: seq<Action>)
  {
    var m := ActionMap(a);
    forall id :: id in OrderIds(a) ==>
      var place := Lookup(m, EventKey(id, Place));
      var pickup := Lookup(m, EventKey(id, Pickup));
      var discard := Lookup(m, EventKey(id, Discard));
      && !(Truthy(place) && Truthy(pickup) && place.value > pickup.value)
      && !(Truthy(place) && Truthy(discard) && place.value > discard.value)
  }

  // ---------------------------------------------------------------------------
  // A reference statement of the rules, by membership alone

  /** Some action of `id` and kind `k` with a non-zero timestamp is in the log. */
  predicate HasEvent(a: seq<Action>, id: OrderId, k: ActionKind)
  {
    exists x :: x in a && x.orderId == id && x.kind == k && x.timestamp != 0
  }

  /** Every order in the log was placed and then picked up or discarded. */
  predicate EveryOrderComplete(a: seq<Action>)
  {
    forall x :: x in a ==>
      && HasEvent(a, x.orderId, Place)
      && (HasEvent(a, x.orderId, Pickup) || HasEvent(a, x.orderId, Discard))
  }

  /** No PICKUP or DISCARD is strictly earlier than the same order's PLACE (zero stamps are ignored). */
  predicate PlaceComesFirst(a: seq<Action>)
  {
    forall p, q :: p in a && q in a && p.orderId == q.orderId && p.kind == Place
      && (q.kind == Pickup || q.kind == Discard) && p.timestamp != 0 && q.timestamp != 0
      ==> p.timestamp <= q.timestamp
  }

  // ---------------------------------------------------------------------------
  // The checks

  /** The single-event check: counts each key while scanning and stops at the first repeat. */
  method ValidateSingleEvents(a: seq<Action>) returns (ok: bool)
    ensures ok <==> SingleEvents(a)
  {
    var counter: map<string, nat> := map[];
    var i := 0;
    while i < |a|
      invariant 0 <= i <= |a|
      invariant TallyMatches(counter, a[..i])
      invariant SingleEvents(a[..i])
    {
      var key := EventKey(a[i].orderId, a[i].kind);
      var count := Tally(counter, key) + 1;
      TallyStep(counter, a, i);
      counter := counter[key := count];
      if a[i].kind in {Place, Pickup, Discard} && count > 1 {
        CountPrefix(a, i + 1, a[i].orderId, a[i].kind);
        return false;
      }
      SingleEventsStep(a, i);
      i := i + 1;
    }
    assert a[..i] == a;
    return true;
  }

  /** The presence check. */
  function ValidateOrdersHavePlaceAndPickup(a: seq<Action>): (ok: bool)
    ensures SingleEvents(a) ==> (ok <==> EveryOrderComplete(a))
  {
    if SingleEvents(a) then
      PresenceMatchesReference(a);
      PresenceHolds(a)
    else PresenceHolds(a)
  }

  /** The ordering check. */
  function ValidatePickupOrDiscardAfterPlace(a: seq<Action>): (ok: bool)
    ensures SingleEvents(a) ==> (ok <==> PlaceComesFirst(a))
  {
    if SingleEvents(a) then
      OrderingMatchesReference(a);
      OrderingHolds(a)
    else OrderingHolds(a)
  }

  /** The three checks in order; `None` means the log is accepted. */
  method ValidateActions(a: seq<Action>) returns (failure: Option<ValidationError>)
    ensures failure.None? <==> SingleEvents(a) && EveryOrderComplete(a) && PlaceComesFirst(a)
    ensures failure == Some(DuplicateEvent) <==> !SingleEvents(a)
    ensures failure == Some(MissingEvent) <==> SingleEvents(a) && !EveryOrderComplete(a)
    ensures failure == Some(EventBeforePlace) <==> SingleEvents(a) && EveryOrderComplete(a) && !PlaceComesFirst(a)
  {
    var single := ValidateSingleEvents(a);
    if !single {
      return Some(DuplicateEvent);
    }
    if !ValidateOrdersHavePlaceAndPickup(a) {
      return Some(MissingEvent);
    }
    if !ValidatePickupOrDiscardAfterPlace(a) {
      return Some(EventBeforePlace);
    }
    return None;
  }

  // ---------------------------------------------------------------------------
  // Lemmas

  /** Splitting at the last dash recovers both parts when the tail has no dash. */
  lemma DashSplit(id: string, n: string, id': string, n': string)
    requires id + "-" + n == id' + "-" + n'
    requires '-' !in n && '-' !in n'
    ensures id == id' && n == n'
  {
    var key := id + "-" + n;
    assert forall i :: |id| + 1 <= i < |key| ==> key[i] == n[i - |id| - 1] && key[i] != '-';
    assert forall i :: |id'| + 1 <= i < |key| ==> key[i] == n'[i - |id'| - 1] && key[i] != '-';
    assert key[|id|] == '-' && key[|id'|] == '-';
    assert |id| == |id'|;
    assert id == key[..|id|] && id' == key[..|id'|];
    assert n == key[|id| + 1..] && n' == key[|id'| + 1..];
  }

  /** Distinct (order id, kind) pairs never share a dictionary key. */
  lemma EventKeyInjective(id: OrderId, k: ActionKind, id': OrderId, k': ActionKind)
    requires EventKey(id, k) == EventKey(id', k')
    ensures id == id' && k == k'
  {
    assert '-' !in KindName(k) by {
      match k case Place => case Move => case Pickup => case Discard =>
    }
    assert '-' !in KindName(k') by {
      match k' case Place => case Move => case Pickup => case Discard =>
    }
    DashSplit(id, KindName(k), id', KindName(k'));
  }

  lemma EventKeyMatches(id': OrderId, k': ActionKind)
    ensures forall id, k :: EventKey(id, k) == EventKey(id', k') ==> id == id' && k == k'
  {
    forall id, k | EventKey(id, k) == EventKey(id', k') ensures id == id' && k == k' {
      EventKeyInjective(id, k, id', k');
    }
  }

  /** The counter holds, under each key, the count of that key's actions in `a`. */
  ghost predicate TallyMatches(counter: map<string, nat>, a: seq<Action>)
  {
    forall id, k :: Tally(counter, EventKey(id, k)) == Count(a, id, k)
  }

  /** One step of the counting loop keeps the counter equal to the counts of the scanned prefix. */
  lemma TallyStep(counter: map<string, nat>, a: seq<Action>, i: nat)
    requires i < |a|
    requires TallyMatches(counter, a[..i])
    ensures var key := EventKey(a[i].orderId, a[i].kind);
      TallyMatches(counter[key := Tally(counter, key) + 1], a[..i + 1])
    ensures Tally(counter, EventKey(a[i].orderId, a[i].kind)) + 1 == Count(a[..i + 1], a[i].orderId, a[i].kind)
  {
    CountStep(a, i);
    EventKeyMatches(a[i].orderId, a[i].kind);
  }

  /** Scanning one more action keeps the single-event rule unless that action repeats a non-MOVE key. */
  lemma SingleEventsStep(a: seq<Action>, i: nat)
    requires i < |a|
    requires SingleEvents(a[..i])
    requires a[i].kind == Move || Count(a[..i + 1], a[i].orderId, a[i].kind) <= 1
    ensures SingleEvents(a[..i + 1])
  {
    CountStep(a, i);
    var pre := a[..i + 1];
    forall j | 0 <= j < |pre| && pre[j].kind != Move
      ensures Count(pre, pre[j].orderId, pre[j].kind) <= 1
    {
      if j < i {
        assert pre[j] == a[..i][j];
      }
    }
  }

  lemma CountStep(a: seq<Action>, i: nat)
    requires i < |a|
    ensures forall id, k ::
      Count(a[..i + 1], id, k) == Count(a[..i], id, k) + (if a[i].orderId == id && a[i].kind == k then 1 else 0)
  {
    assert a[..i + 1][..i] == a[..i];
  }

  lemma {:induction false} CountPrefix(a: seq<Action>, n: nat, id: OrderId, k: ActionKind)
    requires n <= |a|
    ensures Count(a[..n], id, k) <= Count(a, id, k)
    decreases |a|
  {
    if n < |a| {
      assert a[..|a| - 1][..n] == a[..n];
      CountPrefix(a[..|a| - 1], n, id, k);
    } else {
      assert a[..n] == a;
    }
  }

  lemma {:induction false} CountConcat(u: seq<Action>, v: seq<Action>, id: OrderId, k: ActionKind)
    ensures Count(u + v, id, k) == Count(u, id, k) + Count(v, id, k)
    decreases |v|
  {
    if |v| == 0 {
      assert u + v == u;
    } else {
      assert (u + v)[..|u + v| - 1] == u + v[..|v| - 1];
      CountConcat(u, v[..|v| - 1], id, k);
    }
  }

  /** An action present in the log is counted. */
  lemma {:induction false} CountMember(a: seq<Action>, x: Action)
    requires x in a
    ensures Count(a, x.orderId, x.kind) >= 1
    decreases |a|
  {
    if a[|a| - 1] != x {
      assert x in a[..|a| - 1] by {
        var i :| 0 <= i < |a| && a[i] == x;
        assert a[..|a| - 1][i] == x;
      }
      CountMember(a[..|a| - 1], x);
    }
  }

  /** Removing the action at `j` takes one copy of it out of the multiset. */
  lemma RemoveAtMultiset(b: seq<Action>, j: nat)
    requires j < |b|
    ensures multiset(b[..j] + b[j + 1..]) == multiset(b) - multiset{b[j]}
  {
    assert b == b[..j] + [b[j]] + b[j + 1..];
  }

  /** Removing the action at `j` takes it out of its count. */
  lemma RemoveAt(b: seq<Action>, j: nat, id: OrderId, k: ActionKind)
    requires j < |b|
    ensures Count(b, id, k) == Count(b[..j] + b[j + 1..], id, k) + (if b[j].orderId == id && b[j].kind == k then 1 else 0)
  {
    assert b == b[..j] + [b[j]] + b[j + 1..];
    CountConcat(b[..j] + [b[j]], b[j + 1..], id, k);
    CountConcat(b[..j], [b[j]], id, k);
    CountConcat(b[..j], b[j + 1..], id, k);
    assert [b[j]][..0] == [];
  }

  /** Counting ignores the order of the log. */
  lemma {:induction false} CountPermutation(a: seq<Action>, b: seq<Action>, id: OrderId, k: ActionKind)
    requires multiset(a) == multiset(b)
    ensures Count(a, id, k) == Count(b, id, k)
    decreases |a|
  {
    if |a| == 0 {
      assert |b| == |multiset(b)| == 0;
    } else {
      var j := MatchLast(a, b);
      RemoveAt(b, j, id, k);
      CountPermutation(a[..|a| - 1], b[..j] + b[j + 1..], id, k);
    }
  }

  /** Where the last action of `a` sits in its permutation `b`, and what is left of both without it. */
  lemma MatchLast(a: seq<Action>, b: seq<Action>) returns (j: nat)
    requires |a| > 0 && multiset(a) == multiset(b)
    ensures j < |b| && b[j] == a[|a| - 1]
    ensures multiset(a[..|a| - 1]) == multiset(b[..j] + b[j + 1..])
  {
    var x := a[|a| - 1];
    RemoveAtMultiset(a, |a| - 1);
    assert a[..|a| - 1] + a[|a|..] == a[..|a| - 1];
    assert x in multiset(b);
    j :| 0 <= j < |b| && b[j] == x;
    RemoveAtMultiset(b, j);
  }

  /** What the dictionary holds under a key, in terms of the log. */
  lemma {:induction false} ActionMapLookup(a: seq<Action>, id: OrderId, k: ActionKind)
    ensures Lookup(ActionMap(a), EventKey(id, k)).None? <==> Count(a, id, k) == 0
    ensures Lookup(ActionMap(a), EventKey(id, k)).Some? ==>
      exists x :: x in a && x.orderId == id && x.kind == k && x.timestamp == Lookup(ActionMap(a), EventKey(id, k)).value
    ensures Count(a, id, k) <= 1 ==>
      forall x :: x in a && x.orderId == id && x.kind == k ==> Lookup(ActionMap(a), EventKey(id, k)) == Some(x.timestamp)
    decreases |a|
  {
    if |a| > 0 {
      var init := a[..|a| - 1];
      var last := a[|a| - 1];
      assert a == init + [last];
      ActionMapLookup(init, id, k);
      if last.orderId == id && last.kind == k {
        if Count(a, id, k) <= 1 {
          forall x | x in init && x.orderId == id && x.kind == k ensures false {
            CountMember(init, x);
          }
        }
      } else {
        if EventKey(last.orderId, last.kind) == EventKey(id, k) {
          EventKeyInjective(last.orderId, last.kind, id, k);
        }
        forall x | x in a && x.orderId == id && x.kind == k ensures x in init {
        }
      }
    }
  }

  /** Under the single-event rule, no non-MOVE pair is counted twice, present or not. */
  lemma SingleEventsBound(a: seq<Action>, id: OrderId, k: ActionKind)
    requires SingleEvents(a) && k != Move
    ensures Count(a, id, k) <= 1
  {
  }

  /** Under the single-event rule a looked-up timestamp is truthy exactly when a non-zero event exists. */
  lemma TruthyLookup(a: seq<Action>, id: OrderId, k: ActionKind)
    requires SingleEvents(a) && k != Move
    ensures Truthy(Lookup(ActionMap(a), EventKey(id, k))) <==> HasEvent(a, id, k)
    ensures forall x :: x in a && x.orderId == id && x.kind == k ==> Lookup(ActionMap(a), EventKey(id, k)) == Some(x.timestamp)
  {
    SingleEventsBound(a, id, k);
    ActionMapLookup(a, id, k);
  }

  lemma PresenceMatchesReference(a: seq<Action>)
    requires SingleEvents(a)
    ensures PresenceHolds(a) <==> EveryOrderComplete(a)
  {
    forall id
      ensures Truthy(Lookup(ActionMap(a), EventKey(id, Place))) <==> HasEvent(a, id, Place)
      ensures Truthy(Lookup(ActionMap(a), EventKey(id, Pickup))) <==> HasEvent(a, id, Pickup)
      ensures Truthy(Lookup(ActionMap(a), EventKey(id, Discard))) <==> HasEvent(a, id, Discard)
    {
      TruthyLookup(a, id, Place);
      TruthyLookup(a, id, Pickup);
      TruthyLookup(a, id, Discard);
    }
    forall x | x in a ensures x.orderId in OrderIds(a) {}
  }

  lemma OrderingMatchesReference(a: seq<Action>)
    requires SingleEvents(a)
    ensures OrderingHolds(a) <==> PlaceComesFirst(a)
  {
    forall id, k | k != Move
      ensures forall x :: x in a && x.orderId == id && x.kind == k ==> Lookup(ActionMap(a), EventKey(id, k)) == Some(x.timestamp)
      ensures Lookup(ActionMap(a), EventKey(id, k)).Some? ==>
        exists x :: x in a && x.orderId == id && x.kind == k && x.timestamp == Lookup(ActionMap(a), EventKey(id, k)).value
    {
      TruthyLookup(a, id, k);
      ActionMapLookup(a, id, k);
    }
    forall x | x in a ensures x.orderId in OrderIds(a) {}
  }

  /** Whether a log passes, and which check rejects it, does not depend on the order of its actions. */
  lemma ValidationIgnoresOrder(a: seq<Action>, b: seq<Action>)
    requires multiset(a) == multiset(b)
    ensures SingleEvents(a) <==> SingleEvents(b)
    ensures EveryOrderComplete(a) <==> EveryOrderComplete(b)
    ensures PlaceComesFirst(a) <==> PlaceComesFirst(b)
  {
    forall x ensures x in a <==> x in b {
      assert x in a <==> x in multiset(a);
      assert x in b <==> x in multiset(b);
    }
    forall id, k ensures Count(a, id, k) == Count(b, id, k) {
      CountPermutation(a, b, id, k);
    }
    if SingleEvents(a) {
      forall j | 0 <= j < |b| && b[j].kind != Move ensures Count(b, b[j].orderId, b[j].kind) <= 1 {
        assert b[j] in a;
        var i :| 0 <= i < |a| && a[i] == b[j];
      }
    }
    if SingleEvents(b) {
      forall i | 0 <= i < |a| && a[i].kind != Move ensures Count(a, a[i].orderId, a[i].kind) <= 1 {
        assert a[i] in b;
        var j :| 0 <= j < |b| && b[j] == a[i];
      }
    }
  }
}

=== FILE: wrappers.dfy ===
/** Failure-carrying result types shared by the whole model. */
module Wrappers {

  /** An optional value: `None` models Python's `None` return. */
  datatype Option<+T> = None | Some(value: T)

  /** The outcome of an operation that may raise: `Failure` carries the exception. */
  datatype Result<+T, +E> = Success(value: T) | Failure(error: E)
}
